=== FILE: README.md ===
# p-n junction wave simulator — Dafny model

This project models the simulation core of `schrodinger_solution/pn_junction.py`,
a real-time viewer of a damped 2D wave field used as a toy p-n junction
potential. Each frame it does five things in order:

1. Doping sets random cells of the left half to height -0.5 and random cells
   of the right half to 0.5.
2. Voltage forcing runs when the checkbox is set. It clamps the left fifth of
   the columns to 0.5 and the right fifth to -1.
3. The pointer update adds the cursor's move to the cumulative rotation while
   the left button is held.
4. One explicit, damped finite-difference step moves the interior of the grid
   and advances the clock.
5. The render pass rotates the axis triad and every grid point, projects them
   to the screen, and colours every point by its height.

The model uses the source's constants:

- N = 131072.
- NX = NY = 362, the integer part of sqrt(N).
- dt = 1e-6 and dx = 1/N.

Heights, velocities and coordinates are Dafny `real`s. Three things are not
exact arithmetic in the source, so they become parameters:

- the per-cell outcomes of the random draws (`Perturbation.Draw`);
- the damping factor `exp(-damping*dt)`, a `Wave.Damping` strictly between 0 and 1;
- the cosine and sine functions.

The rotation matrices built from those cosines and sines are modelled exactly.

Modules:

- `State`: the constants, the cell record (x, y, z, v), the grid and clock, and start-up.
- `Perturbation`: doping and voltage forcing.
- `Wave`: the integrator step.
- `Vectors`: small vector helpers.
- `Cursor`: the pointer state and the cumulative rotation.
- `View`: rotation, projection, colour bands, the flat index and the render pass.
- `FrameLoop`: one frame and runs of frames.

Three points where the code does something a reader might not expect:

- The comment at `pn_junction.py:45` says x is mapped to [-1, 1]. The code
  maps index i to i/NX*2-1, so 1 is never reached (`State.CoordRange`).
- The integrator runs in place inside a parallel loop. The model reads a
  snapshot of the heights taken before the step (see "Left out").
- The point buffer has N slots, but only NX*NY = N - 28 of them are ever
  written. The last 28 slots keep whatever they held, which is zero from
  start-up (`View.RenderPoints`, `State.GridSides`).

## Model

| member | source | states |
|---|---|---|
| `State.FloorSqrt` | schrodinger_solution/pn_junction.py:28 | returns the integer square root: r*r <= n < (r+1)*(r+1) |
| `State.FloorSqrtUnique` | schrodinger_solution/pn_junction.py:28 | two naturals that both satisfy the integer-square-root bounds for n are equal |
| `State.FloorSqrtOfNIsNX` | schrodinger_solution/pn_junction.py:28 | any r with r*r <= N < (r+1)*(r+1), such as the result of `State.FloorSqrt` on N, equals NX and NY |
| `State.GridSides` | schrodinger_solution/pn_junction.py:27-28 | NX = NY = 362 satisfies the integer-square-root bounds for 131072, and the grid has 131044 cells, 28 fewer than N |
| `State.CoordRange` | schrodinger_solution/pn_junction.py:45-46 | every index in range maps to a coordinate in [-1, 1); 1 is never reached |
| `State.CoordStrictlyIncreasing` | schrodinger_solution/pn_junction.py:45-46 | larger indices get strictly larger coordinates, so no two columns or rows share a coordinate |
| `State.CoordRoundTrip` | schrodinger_solution/pn_junction.py:45-46 | the index is recovered from its coordinate as (x+1)/2*NX |
| `State.InitGrid` | schrodinger_solution/pn_junction.py:43-49 | after initialisation every cell sits at its index position, with height 0 and velocity 0 |
| `State.Init` | schrodinger_solution/pn_junction.py:40-49 | the start-up state has a placed, level, resting grid and clock 0 |
| `Perturbation.HalvesPartition` | schrodinger_solution/pn_junction.py:55-57 | every column is in exactly one doping half, and the left half is columns 0 to 181 |
| `Perturbation.ClampRegions` | schrodinger_solution/pn_junction.py:64-67 | the two clamped regions are disjoint: columns 0 to 72 are held high and 290 to 361 held low |
| `Perturbation.DopeCell` | schrodinger_solution/pn_junction.py:53-58 | one cell is changed only if its half's draw fires; it then gets -0.5 (left) or 0.5 (right); its velocity is kept, and a placed position stays put |
| `Perturbation.Doping` | schrodinger_solution/pn_junction.py:51-58 | left-half cells end with their old height or -0.5, right-half cells with their old height or 0.5; a fired draw forces the value; no cell changes without a fired draw; velocities are untouched and plane positions are kept |
| `Perturbation.DopingIdempotent` | schrodinger_solution/pn_junction.py:51-58 | doping a second time with the same draws gives the same grid as doping once |
| `Perturbation.VoltageCell` | schrodinger_solution/pn_junction.py:64-67 | one cell: a high-clamped column gets height 0.5, a low-clamped column -1, a middle cell is unchanged; the velocity is kept and a placed position stays put |
| `Perturbation.ApplyVoltage` | schrodinger_solution/pn_junction.py:60-67 | columns below NX*0.2 get height 0.5, columns above NX*0.8 get -1, middle cells are unchanged, velocities and plane positions are kept |
| `Perturbation.VoltageIdempotent` | schrodinger_solution/pn_junction.py:60-67 | forcing the voltage twice gives the same grid as forcing it once |
| `Perturbation.VoltageForgetsClampedColumns` | schrodinger_solution/pn_junction.py:64-67 | after forcing, a clamped cell no longer depends on the height it held before |
| `Wave.Laplacian` | schrodinger_solution/pn_junction.py:73-75 | the five-point Laplacian is non-negative where the cell is no higher than its four neighbours and non-positive where it is no lower |
| `Wave.LaplacianOfStencil` | schrodinger_solution/pn_junction.py:73-75 | on every interior neighbourhood, written as i-neighbours z+p+a, z+p-a and j-neighbours z+q+b, z+q-b, the Laplacian is 2(p+q)/dx^2: all four neighbours enter with weight 1/dx^2 and the cell with -4/dx^2 |
| `Wave.NewVelocity` | schrodinger_solution/pn_junction.py:76-77 | the new velocity lies strictly between zero and the velocity after the wave increment, and is zero when that is zero: damping shrinks the incremented velocity towards zero without flipping its sign |
| `Wave.LaplacianOfLevelStencil` | schrodinger_solution/pn_junction.py:73-75 | the five-point Laplacian is zero when the four neighbours have the cell's height |
| `Wave.LaplacianOfTiltedStencil` | schrodinger_solution/pn_junction.py:73-75 | the Laplacian is zero wherever the heights rise linearly through the cell in both directions, so opposite neighbours balance |
| `Wave.StepCell` | schrodinger_solution/pn_junction.py:72-78 | a ring cell is unchanged; an interior cell keeps x and y, takes the new velocity computed from its old velocity and its Laplacian (increment, then damping), and moves its height by that new velocity times dt |
| `Wave.Step` | schrodinger_solution/pn_junction.py:69-79 | the clock advances by exactly dt, outer-ring cells are unchanged, no cell's x or y changes, and every interior cell is updated from the grid as it was before the step |
| `Wave.DampingAfterIncrement` | schrodinger_solution/pn_junction.py:76-77 | damping is applied after the Laplacian increment, so the increment is damped too |
| `Wave.StepIsLocal` | schrodinger_solution/pn_junction.py:72-78 | a cell's update depends only on the cell and its four neighbours' heights |
| `Wave.LevelRestIsFixedPoint` | schrodinger_solution/pn_junction.py:73-78 | a level field with zero velocity is left exactly as it was; only the clock moves |
| `Cursor.Update` | schrodinger_solution/pn_junction.py:140-147 | the previous cursor becomes the sample in both branches; with the button held the rotation grows by the cursor's move, otherwise it is unchanged |
| `Cursor.Track` | schrodinger_solution/pn_junction.py:132-147 | after a run the previous cursor is the last sample, and a run with the button never held leaves the rotation unchanged |
| `Cursor.TrackAccumulatesDrags` | schrodinger_solution/pn_junction.py:141-147 | after any run the rotation is the start plus the sum of the moves made while the button was held |
| `Cursor.HeldDragTelescopes` | schrodinger_solution/pn_junction.py:141-145 | over a run with the button held throughout, the rotation grows by the last cursor minus the cursor before the run |
| `Cursor.DragExample` | schrodinger_solution/pn_junction.py:141-147 | held moves (1,0) then (0,2) give rotation (1,2), and a later released move leaves it |
| `View.RotateX` | schrodinger_solution/pn_junction.py:93-95 | rotation about the X axis keeps x and turns the unit y axis to (0, cos, sin) |
| `View.RotateY` | schrodinger_solution/pn_junction.py:97-99 | rotation about the Y axis keeps y and turns the unit x axis to (cos, 0, -sin) |
| `View.OrientationOf` | schrodinger_solution/pn_junction.py:90-99 | the pitch (rotation about X) takes the cosine and sine of the second component of the cumulative rotation and the yaw (about Y) those of the first; zero rotation with cos 0 = 1 and sin 0 = 0 gives no rotation |
| `View.Rotate` | schrodinger_solution/pn_junction.py:102-110 | the composed rotation is the identity when both angles are zero, and its y component is that of the pitch rotation alone, because the yaw about Y keeps y |
| `View.RotateAxisImages` | schrodinger_solution/pn_junction.py:102-110 | the unit x axis is turned by the yaw alone to (cos, 0, -sin), and the unit y axis is tilted by the pitch and then turned by the yaw: R_x is applied first, then R_y |
| `View.RotationKeepsLength` | schrodinger_solution/pn_junction.py:93-110 | when cos^2 + sin^2 = 1 for both angles, the composed rotation keeps every point's distance from the origin |
| `View.RotateOpposite` | schrodinger_solution/pn_junction.py:102-110 | rotating the reflection of a point through the origin gives the reflection of the rotated point |
| `View.ProjectAxis` | schrodinger_solution/pn_junction.py:103 | a rotated coordinate is in [-1, 1] exactly when its axis screen coordinate is in [0.2, 0.8] |
| `View.ProjectPoint` | schrodinger_solution/pn_junction.py:111 | a rotated coordinate is in [-1, 1] exactly when its grid-point screen coordinate is in [0, 1] |
| `View.ProjectionsRoundTrip` | schrodinger_solution/pn_junction.py:103-111 | both projections can be inverted to recover the rotated x and y; z plays no part |
| `View.ProjectionExample` | schrodinger_solution/pn_junction.py:103-111 | the rotated point (0.4, -0.2) goes to (0.7, 0.4) as a grid point and to (0.62, 0.44) as an axis end |
| `View.Classify` | schrodinger_solution/pn_junction.py:112-117 | green exactly when -0.1 <= z <= 0.1, red exactly when z < -0.1, blue exactly when z > 0.1 |
| `View.ClassifyExample` | schrodinger_solution/pn_junction.py:112-117 | heights 0.05, -0.3 and 0.5 get green, red and blue |
| `View.AxisEndsMirror` | schrodinger_solution/pn_junction.py:101-103 | the two ends of each axis are drawn mirrored through the screen centre (0.5, 0.5), whatever the rotation |
| `View.AxisLines` | schrodinger_solution/pn_junction.py:101-103 | six axis ends are drawn, and for every rotation the two ends of the x, y and z axes are symmetric about the screen centre |
| `View.UprightAxisEnd` | schrodinger_solution/pn_junction.py:101-103 | with no rotation, each axis end is drawn at the projection of the unrotated end |
| `View.ProjectedEnds` | schrodinger_solution/pn_junction.py:103 | the six unrotated axis ends project to (0.2,0.5), (0.8,0.5), (0.5,0.2), (0.5,0.8) and the centre twice |
| `View.UprightAxisLines` | schrodinger_solution/pn_junction.py:101-103 | with no rotation, the axis ends are drawn at (0.2,0.5), (0.8,0.5), (0.5,0.2), (0.5,0.8), and the z axis at the centre |
| `View.FlatIndex` | schrodinger_solution/pn_junction.py:108 | the slot i*NY + j of every cell is below NX*NY, which is below N |
| `View.Unflatten` | schrodinger_solution/pn_junction.py:108 | every slot below NX*NY belongs to a cell whose flat index is that slot |
| `View.FlatIndexRoundTrip` | schrodinger_solution/pn_junction.py:108 | unflattening a cell's slot gives back the cell |
| `View.FlatIndexInjective` | schrodinger_solution/pn_junction.py:108 | distinct cells never share a slot |
| `View.RenderPoints` | schrodinger_solution/pn_junction.py:105-111 | each cell's slot holds the projection of the rotated cell; the 28 slots past the grid keep their old contents |
| `View.RenderColors` | schrodinger_solution/pn_junction.py:105-117 | each cell's slot holds the band of the cell's unrotated height, whatever the rotation; the slots past the grid keep their old contents |
| `View.UprightGridOnScreen` | schrodinger_solution/pn_junction.py:105-111 | with no rotation, cell (i, j) of a placed grid is drawn at (i/NX, j/NY), inside [0, 1) |
| `View.ApplyRotation` | schrodinger_solution/pn_junction.py:89-117 | the axis loop and the row-major double loop over the cells give the same buffers as the reference definitions |
| `FrameLoop.Boot` | schrodinger_solution/pn_junction.py:119-129 | start-up has a placed, level, resting grid, clock 0, pointer and rotation at the origin, and buffers of the right sizes whose every point is the origin and every colour black |
| `FrameLoop.Perturb` | schrodinger_solution/pn_junction.py:134-137 | every cell outside the clamped columns, and every cell when the voltage is off, is exactly the doped cell; with the voltage on the clamped columns hold 0.5 and -1; velocities and plane positions are kept |
| `FrameLoop.Frame` | schrodinger_solution/pn_junction.py:132-149 | one frame advances the clock by dt and updates the pointer; the outer ring ends as perturbed, and every interior cell is the integrator step of the perturbed grid; colours come from the stepped heights; points and axis lines are drawn with this frame's rotation |
| `FrameLoop.Run` | schrodinger_solution/pn_junction.py:132-149 | after n frames the clock has advanced by n*dt, the grid is still placed, and the pointer is the run of its updates |
| `FrameLoop.RunSnoc` | schrodinger_solution/pn_junction.py:132-149 | a run over inputs followed by one more input is the shorter run followed by one frame, so a run applies its frames one after another in input order |
| `FrameLoop.QuietPerturbIsIdentity` | schrodinger_solution/pn_junction.py:134-137 | with no draw firing and the voltage off, the perturbation phase changes nothing |
| `FrameLoop.QuietRunKeepsLevelRest` | schrodinger_solution/pn_junction.py:132-149 | a level grid at rest stays exactly the same over any run of quiet frames |
| `FrameLoop.RingVelocityNeverChanges` | schrodinger_solution/pn_junction.py:132-149 | the velocity of an outer-ring cell never changes over any run |
| `FrameLoop.RunFromBoot` | schrodinger_solution/pn_junction.py:119-149 | from start-up, every cell stays at its index position, ring velocities stay 0, and the clock reads frames * dt |

## Left out

- Floating point: the source stores heights, velocities, the plane coordinates x and y, the clock, the previous cursor position, the cumulative rotation and the screen coordinates as 32-bit floats. The model uses exact reals, so rounding and numerical stability (boundedness or energy decay over long runs) are not claimed.
- The damping factor `exp(-damping*dt)` with damping = 100000 is not computed; it is a parameter known only to lie strictly between 0 and 1.
- `ti.cos` and `ti.sin` are function parameters. The rotation matrices built from them are modelled exactly, and `View.RotationKeepsLength` assumes cos^2 + sin^2 = 1.
- `ti.random()` and its distribution (probabilities 0.001 and 0.01) are not modelled. Each cell's doping pass takes the outcomes of its two threshold tests as a given `Draw`.
- Parallel execution: the source updates the grid in place inside a parallel loop, so a neighbour read may or may not see a write from the same step. `Wave.Step` reads a snapshot taken before the step. `Wave.StepIsLocal` shows that the result at a cell depends only on its five-point stencil. The model does not claim which interleaving the hardware produces.
- The window, canvas, GUI checkbox widget, cursor polling, `canvas.lines`/`canvas.circles` and `window.show()` are I/O. The checkbox value, cursor position and button state are inputs of `FrameLoop.Frame`.
- Buffer setup from numpy (`from_numpy`, the axis colour array) is data loading. The axis triad is a constant in `View`; the per-vertex axis colour array is only passed to the drawing call and is not modelled.
- The unused `delta` field is not modelled. Neither is the copy of the axis triad kept by `init_axes`, which the model expresses by always rotating the constant triad.

=== FILE: cursor.dfy ===
/** Pointer tracking and the cumulative rotation it drives. Each frame the
    cursor position is sampled; while the primary button is held the move
    since the previous sample is added to the rotation, and in every frame
    the sample becomes the new previous position. */
module Cursor {
  import opened Vectors

  /** The previous cursor sample and the accumulated rotation
      (rotation.x drives the yaw, rotation.y the pitch). */
  datatype Pointer = Pointer(prev: Vec2, rotation: Vec2)

  /** Both start at the origin. */
  const Start: Pointer := Pointer(Origin2, Origin2)

  /** One frame's input: where the cursor is and whether the button is held. */
  datatype Sample = Sample(cursor: Vec2, pressed: bool)

  /** The per-frame pointer update. */
  function Update(p: Pointer, s: Sample): (r: Pointer)
    ensures r.prev == s.cursor
    ensures s.pressed ==> Sub(r.rotation, p.rotation) == Sub(s.cursor, p.prev)
    ensures !s.pressed ==> r.rotation == p.rotation
  {
    if s.pressed then
      var delta := Sub(s.cursor, p.prev);
      Pointer(s.cursor, Add(p.rotation, delta))
    else
      Pointer(s.cursor, p.rotation)
  }

  /** The pointer after a run of frames, oldest sample first. */
  function Track(p: Pointer, ss: seq<Sample>): (r: Pointer)
    ensures |ss| > 0 ==> r.prev == ss[|ss| - 1].cursor
    ensures |ss| == 0 ==> r == p
    ensures (forall n :: 0 <= n < |ss| ==> !ss[n].pressed) ==> r.rotation == p.rotation
    decreases |ss|
  {
    if |ss| == 0 then p else Track(Update(p, ss[0]), ss[1..])
  }

  /** Reference definition: the sum of the moves made while the button was
      held, each move measured from the sample before it. */
  function DraggedDistance(from: Vec2, ss: seq<Sample>): Vec2
    decreases |ss|
  {
    if |ss| == 0 then Origin2
    else
      var step := if ss[0].pressed then Sub(ss[0].cursor, from) else Origin2;
      Add(step, DraggedDistance(ss[0].cursor, ss[1..]))
  }

  /** The rotation after a run is the starting rotation plus the distance
      dragged with the button held. */
  lemma {:induction false} TrackAccumulatesDrags(p: Pointer, ss: seq<Sample>)
    ensures Track(p, ss).rotation == Add(p.rotation, DraggedDistance(p.prev, ss))
    decreases |ss|
  {
    if |ss| > 0 {
      var q := Update(p, ss[0]);
      var step := if ss[0].pressed then Sub(ss[0].cursor, p.prev) else Origin2;
      var rest := DraggedDistance(ss[0].cursor, ss[1..]);
      assert q.prev == ss[0].cursor;
      assert q.rotation == Add(p.rotation, step);
      TrackAccumulatesDrags(q, ss[1..]);
      assert Track(p, ss) == Track(q, ss[1..]);
      assert DraggedDistance(p.prev, ss) == Add(step, rest);
    }
  }

  /** Over a run with the button held throughout, the accumulated rotation
      telescopes to the last cursor position minus the one before the run. */
  lemma {:induction false} HeldDragTelescopes(p: Pointer, ss: seq<Sample>)
    requires |ss| > 0
    requires forall n :: 0 <= n < |ss| ==> ss[n].pressed
    ensures Track(p, ss).rotation == Add(p.rotation, Sub(ss[|ss| - 1].cursor, p.prev))
    decreases |ss|
  {
    var q := Update(p, ss[0]);
    if |ss| > 1 {
      HeldDragTelescopes(q, ss[1..]);
    }
  }

  /** Moves (1, 0) and then (0, 2) with the button held add up to a
      rotation of (1, 2); a later move with the button released leaves it. */
  lemma DragExample()
    ensures var ss := [Sample(Vec2(1.0, 0.0), true), Sample(Vec2(1.0, 2.0), true)];
      Track(Start, ss).rotation == Vec2(1.0, 2.0)
    ensures var ss := [Sample(Vec2(1.0, 0.0), true), Sample(Vec2(1.0, 2.0), true),
                       Sample(Vec2(4.0, -3.0), false)];
      Track(Start, ss) == Pointer(Vec2(4.0, -3.0), Vec2(1.0, 2.0))
  {
    var ss := [Sample(Vec2(1.0, 0.0), true), Sample(Vec2(1.0, 2.0), true),
               Sample(Vec2(4.0, -3.0), false)];
    assert ss[1..][1..] == [ss[2]];
    assert ss[..2][1..] == [ss[1]];
  }
}

=== FILE: frame.dfy ===
/** The frame loop: doping, optional voltage forcing, the pointer update,
    one integrator step and one render pass, in that order, and runs of
    such frames from start-up. */
module FrameLoop {
  import opened Vectors
  import opened State
  import opened Perturbation
  import opened Wave
  import opened Cursor
  import opened View

  /** Everything that persists from one frame to the next: the simulation,
      the pointer state and the render buffers. */
  datatype World = World(sim: Sim, pointer: Pointer, axes: seq<Vec2>, points: seq<Vec2>, colors: seq<Rgb>)

  /** What one frame reads from outside: the doping draws, the voltage
      checkbox and the cursor sample. */
  datatype Input = Input(draws: (int, int) -> Draw, voltage: bool, sample: Sample)

  /** The shape every world keeps: a placed NX by NY grid and buffers of six
      axis ends and N points and colours. */
  predicate Valid(w: World) {
    Placed(w.sim.grid) && |w.axes| == 6 && |w.points| == N && |w.colors| == N
  }

  /** The world at start-up; the buffers start zeroed. */
  function Boot(): (w: World)
    ensures Valid(w)
    ensures Flat(w.sim.grid, 0.0) && Still(w.sim.grid) && w.sim.t == 0.0
    ensures w.pointer == Cursor.Start
    ensures forall n :: 0 <= n < N ==> w.points[n] == Origin2 && w.colors[n] == Black
  {
    World(Init(), Cursor.Start, seq(6, _ => Origin2), seq(N, _ => Origin2), seq(N, _ => Black))
  }

  /** The perturbation phase of a frame: doping always, then the voltage
      forcing if the checkbox is set. */
  function Perturb(g: Grid, inp: Input): (r: Grid)
    requires IsGrid(g)
    ensures IsGrid(r)
    ensures forall i, j :: 0 <= i < NX && 0 <= j < NY ==> r[i][j].v == g[i][j].v
    ensures inp.voltage ==> forall i, j :: 0 <= i < NX && 0 <= j < NY && ClampHigh(i) ==> r[i][j].z == 0.5
    ensures inp.voltage ==> forall i, j :: 0 <= i < NX && 0 <= j < NY && ClampLow(i) ==> r[i][j].z == -1.0
    ensures forall i, j :: 0 <= i < NX && 0 <= j < NY && !(inp.voltage && (ClampHigh(i) || ClampLow(i))) ==>
      r[i][j] == Doping(g, inp.draws)[i][j]
    ensures Placed(g) ==> Placed(r)
  {
    var doped := Doping(g, inp.draws);
    if inp.voltage then ApplyVoltage(doped) else doped
  }

  /** One frame. The render pass sees the heights after the step and the
      rotation after this frame's pointer update. */
  function Frame(w: World, inp: Input, k: Damping, cos: real -> real, sin: real -> real): (r: World)
    requires Valid(w)
    ensures Valid(r)
    ensures r.sim.t == w.sim.t + DT
    ensures r.pointer == Update(w.pointer, inp.sample)
    ensures forall i, j :: 0 <= i < NX && 0 <= j < NY && !Interior(i, j) ==>
      r.sim.grid[i][j] == Perturb(w.sim.grid, inp)[i][j]
    ensures forall i, j :: 0 <= i < NX && 0 <= j < NY && Interior(i, j) ==>
      r.sim.grid[i][j] == StepCell(Perturb(w.sim.grid, inp), i, j, k)
    ensures forall i, j :: InGrid(i, j) ==> r.colors[FlatIndex(i, j)] == Classify(r.sim.grid[i][j].z)
    ensures forall i, j :: InGrid(i, j) ==>
      r.points[FlatIndex(i, j)] ==
        ProjectPoint(Rotate(OrientationOf(r.pointer.rotation, cos, sin), PositionOf(r.sim.grid[i][j])))
    ensures forall n :: NX * NY <= n < N ==> r.points[n] == w.points[n] && r.colors[n] == w.colors[n]
    ensures r.axes == AxisLines(OrientationOf(r.pointer.rotation, cos, sin))
  {
    var g := Perturb(w.sim.grid, inp);
    var p := Update(w.pointer, inp.sample);
    var s := Step(Sim(g, w.sim.t), k);
    var o := OrientationOf(p.rotation, cos, sin);
    World(s, p, AxisLines(o), RenderPoints(s.grid, o, w.points), RenderColors(s.grid, w.colors))
  }

  function Samples(ins: seq<Input>): (ss: seq<Sample>)
    ensures |ss| == |ins|
    ensures forall n :: 0 <= n < |ins| ==> ss[n] == ins[n].sample
  {
    seq(|ins|, n requires 0 <= n < |ins| => ins[n].sample)
  }

  /** A run of frames, oldest input first. */
  function Run(w: World, ins: seq<Input>, k: Damping, cos: real -> real, sin: real -> real): (r: World)
    requires Valid(w)
    ensures Valid(r)
    ensures r.sim.t == w.sim.t + (|ins| as real) * DT
    ensures r.pointer == Track(w.pointer, Samples(ins))
    decreases |ins|
  {
    if |ins| == 0 then w
    else
      var next := Frame(w, ins[0], k, cos, sin);
      assert Samples(ins)[1..] == Samples(ins[1..]);
      Run(next, ins[1..], k, cos, sin)
  }

  /** A run followed by one more frame is the run over the longer input:
      the frames of a run are applied one after another, oldest first. */
  lemma {:induction false} RunSnoc(w: World, ins: seq<Input>, x: Input, k: Damping,
                                   cos: real -> real, sin: real -> real)
    requires Valid(w)
    ensures Run(w, ins + [x], k, cos, sin) == Frame(Run(w, ins, k, cos, sin), x, k, cos, sin)
    decreases |ins|
  {
    if |ins| == 0 {
      assert ins + [x] == [x];
      assert [x][1..] == [];
    } else {
      assert (ins + [x])[0] == ins[0];
      assert (ins + [x])[1..] == ins[1..] + [x];
      RunSnoc(Frame(w, ins[0], k, cos, sin), ins[1..], x, k, cos, sin);
    }
  }

  /** A frame in which no draw fires and the voltage is off. */
  predicate Quiet(inp: Input) {
    !inp.voltage && forall i, j :: 0 <= i < NX && 0 <= j < NY ==> !inp.draws(i, j).low && !inp.draws(i, j).high
  }

  /** Without doping or voltage, the perturbation phase changes nothing. */
  lemma {:induction false} QuietPerturbIsIdentity(g: Grid, inp: Input)
    requires Placed(g) && Quiet(inp)
    ensures Perturb(g, inp) == g
  {
    var r := Perturb(g, inp);
    forall i | 0 <= i < NX
      ensures r[i] == g[i]
    {
      assert forall j :: 0 <= j < NY ==> r[i][j] == g[i][j];
    }
  }

  /** A level field at rest stays exactly as it is over any run of quiet
      frames; only the clock, the pointer and the buffers move. */
  lemma {:induction false} QuietRunKeepsLevelRest(w: World, h: real, ins: seq<Input>, k: Damping,
                                                  cos: real -> real, sin: real -> real)
    requires Valid(w) && Flat(w.sim.grid, h) && Still(w.sim.grid)
    requires forall n :: 0 <= n < |ins| ==> Quiet(ins[n])
    ensures Run(w, ins, k, cos, sin).sim.grid == w.sim.grid
    decreases |ins|
  {
    if |ins| > 0 {
      QuietPerturbIsIdentity(w.sim.grid, ins[0]);
      LevelRestIsFixedPoint(Sim(w.sim.grid, w.sim.t), h, k);
      var next := Frame(w, ins[0], k, cos, sin);
      assert next.sim.grid == w.sim.grid;
      QuietRunKeepsLevelRest(next, h, ins[1..], k, cos, sin);
    }
  }

  /** Velocities of the outer ring: perturbation never touches a velocity
      and the integrator skips the ring, so they never change. */
  lemma {:induction false} RingVelocityNeverChanges(w: World, ins: seq<Input>, k: Damping,
                                                    cos: real -> real, sin: real -> real, i: int, j: int)
    requires Valid(w) && InGrid(i, j) && !Interior(i, j)
    ensures Run(w, ins, k, cos, sin).sim.grid[i][j].v == w.sim.grid[i][j].v
    decreases |ins|
  {
    if |ins| > 0 {
      var next := Frame(w, ins[0], k, cos, sin);
      assert next.sim.grid[i][j].v == w.sim.grid[i][j].v;
      RingVelocityNeverChanges(next, ins[1..], k, cos, sin, i, j);
    }
  }

  /** From start-up, every frame keeps the plane positions fixed at their
      index formula, the outer ring at rest, and the clock at frames * DT. */
  lemma RunFromBoot(ins: seq<Input>, k: Damping, cos: real -> real, sin: real -> real, i: int, j: int)
    requires InGrid(i, j)
    ensures var r := Run(Boot(), ins, k, cos, sin);
      r.sim.grid[i][j].x == CoordX(i) && r.sim.grid[i][j].y == CoordY(j) &&
      r.sim.t == (|ins| as real) * DT &&
      (!Interior(i, j) ==> r.sim.grid[i][j].v == 0.0)
  {
    if !Interior(i, j) {
      RingVelocityNeverChanges(Boot(), ins, k, cos, sin, i, j);
    }
  }
}

=== FILE: perturbation.dfy ===
/** Perturbation engine: the stochastic doping step, run every frame, and
    the voltage forcing of the outer columns, run while the voltage flag
    is set. Both rewrite a cell's (x, y) from its index and leave its
    velocity alone. */
module Perturbation {
  import opened State

  /** The outcome of the two uniform draws a cell takes in one doping pass:
      low is "draw < 0.001", high is "draw > 0.99". */
  datatype Draw = Draw(low: bool, high: bool)

  /** Columns that may be doped to -0.5 and those that may be doped to 0.5. */
  predicate LeftHalf(i: int) {
    (i as real) <= (NX as real) * 0.5
  }

  predicate RightHalf(i: int) {
    (i as real) > (NX as real) * 0.5
  }

  /** Columns forced to 0.5 and to -1 while the voltage is applied. */
  predicate ClampHigh(i: int) {
    (i as real) < (NX as real) * 0.2
  }

  predicate ClampLow(i: int) {
    (i as real) > (NX as real) * 0.8
  }

  /** The halves split the columns: every column is in exactly one, and
      the left half is columns 0 to 181. */
  lemma HalvesPartition(i: int)
    ensures LeftHalf(i) <==> !RightHalf(i)
    ensures LeftHalf(i) <==> i <= 181
  {
  }

  /** The clamped regions are disjoint: columns 0 to 72 are held high and
      columns 290 to 361 are held low, leaving 217 columns free. */
  lemma ClampRegions(i: int)
    ensures !(ClampHigh(i) && ClampLow(i))
    ensures ClampHigh(i) <==> i <= 72
    ensures ClampLow(i) <==> i >= 290
  {
  }

  /** The doping rule for one cell: the left-half test and then the
      right-half test, each rewriting the whole position vector. */
  function DopeCell(i: int, j: int, c: Cell, d: Draw): (r: Cell)
    ensures r.v == c.v
    ensures LeftHalf(i) ==> (r.z == -0.5 <== d.low) && (r.z == c.z || r.z == -0.5)
    ensures RightHalf(i) ==> (r.z == 0.5 <== d.high) && (r.z == c.z || r.z == 0.5)
    ensures r != c ==> (LeftHalf(i) && d.low) || (RightHalf(i) && d.high)
    ensures c.x == CoordX(i) && c.y == CoordY(j) ==> r.x == c.x && r.y == c.y
  {
    var c1 := if LeftHalf(i) && d.low then Cell(CoordX(i), CoordY(j), -0.5, c.v) else c;
    if RightHalf(i) && d.high then Cell(CoordX(i), CoordY(j), 0.5, c1.v) else c1
  }

  /** One doping pass over the whole grid with the given per-cell draws. */
  function Doping(g: Grid, draws: (int, int) -> Draw): (r: Grid)
    requires IsGrid(g)
    ensures IsGrid(r)
    ensures forall i, j :: 0 <= i < NX && 0 <= j < NY ==>
      r[i][j].v == g[i][j].v
    ensures forall i, j :: 0 <= i < NX && 0 <= j < NY && LeftHalf(i) ==>
      r[i][j].z == g[i][j].z || r[i][j].z == -0.5
    ensures forall i, j :: 0 <= i < NX && 0 <= j < NY && RightHalf(i) ==>
      r[i][j].z == g[i][j].z || r[i][j].z == 0.5
    ensures forall i, j :: 0 <= i < NX && 0 <= j < NY && LeftHalf(i) && draws(i, j).low ==>
      r[i][j].z == -0.5
    ensures forall i, j :: 0 <= i < NX && 0 <= j < NY && RightHalf(i) && draws(i, j).high ==>
      r[i][j].z == 0.5
    ensures forall i, j :: 0 <= i < NX && 0 <= j < NY && r[i][j] != g[i][j] ==>
      (LeftHalf(i) && draws(i, j).low) || (RightHalf(i) && draws(i, j).high)
    ensures Placed(g) ==> Placed(r)
  {
    var r := seq(NX, i requires 0 <= i < NX =>
      seq(NY, j requires 0 <= j < NY => DopeCell(i, j, g[i][j], draws(i, j))));
    assert forall i, j :: 0 <= i < NX && 0 <= j < NY ==>
      r[i][j] == DopeCell(i, j, g[i][j], draws(i, j));
    r
  }

  /** Doping with the same draws a second time changes nothing: a fired
      cell is already at its doped height and an unfired one is left. */
  lemma {:induction false} DopingIdempotent(g: Grid, draws: (int, int) -> Draw)
    requires IsGrid(g)
    ensures Doping(Doping(g, draws), draws) == Doping(g, draws)
  {
    var once := Doping(g, draws);
    var twice := Doping(once, draws);
    forall i | 0 <= i < NX
      ensures twice[i] == once[i]
    {
      assert forall j :: 0 <= j < NY ==> twice[i][j] == once[i][j];
    }
  }

  /** The voltage rule for one cell. */
  function VoltageCell(i: int, j: int, c: Cell): (r: Cell)
    ensures r.v == c.v
    ensures ClampHigh(i) ==> r.z == 0.5
    ensures ClampLow(i) ==> r.z == -1.0
    ensures !ClampHigh(i) && !ClampLow(i) ==> r == c
    ensures c.x == CoordX(i) && c.y == CoordY(j) ==> r.x == c.x && r.y == c.y
  {
    if ClampHigh(i) then Cell(CoordX(i), CoordY(j), 0.5, c.v)
    else if ClampLow(i) then Cell(CoordX(i), CoordY(j), -1.0, c.v)
    else c
  }

  /** One voltage pass: the high columns are set to 0.5, the low columns to
      -1, and the middle columns are not touched. */
  function ApplyVoltage(g: Grid): (r: Grid)
    requires IsGrid(g)
    ensures IsGrid(r)
    ensures forall i, j :: 0 <= i < NX && 0 <= j < NY && ClampHigh(i) ==> r[i][j].z == 0.5
    ensures forall i, j :: 0 <= i < NX && 0 <= j < NY && ClampLow(i) ==> r[i][j].z == -1.0
    ensures forall i, j :: 0 <= i < NX && 0 <= j < NY && !ClampHigh(i) && !ClampLow(i) ==>
      r[i][j] == g[i][j]
    ensures forall i, j :: 0 <= i < NX && 0 <= j < NY ==> r[i][j].v == g[i][j].v
    ensures Placed(g) ==> Placed(r)
  {
    seq(NX, i requires 0 <= i < NX =>
      seq(NY, j requires 0 <= j < NY => VoltageCell(i, j, g[i][j])))
  }

  /** Applying the voltage twice is the same as applying it once. */
  lemma {:induction false} VoltageIdempotent(g: Grid)
    requires IsGrid(g)
    ensures ApplyVoltage(ApplyVoltage(g)) == ApplyVoltage(g)
  {
    var once := ApplyVoltage(g);
    var twice := ApplyVoltage(once);
    forall i | 0 <= i < NX
      ensures twice[i] == once[i]
    {
      assert forall j :: 0 <= j < NY ==> twice[i][j] == once[i][j];
    }
  }

  /** Where the voltage clamps a column, the height no longer depends on
      what the column held before. */
  lemma VoltageForgetsClampedColumns(g: Grid, h: Grid, i: int, j: int)
    requires Placed(g) && Placed(h)
    requires 0 <= i < NX && 0 <= j < NY && (ClampHigh(i) || ClampLow(i))
    requires g[i][j].v == h[i][j].v
    ensures ApplyVoltage(g)[i][j] == ApplyVoltage(h)[i][j]
  {
  }
}

=== FILE: state.dfy ===
/** Grid state store of the p-n junction wave simulator: the fixed
    constants, the cell record, the height and velocity fields, the
    simulation clock, and the start-up initialisation of the grid. */
module State {

  /** Number of slots in the projected point buffer. */
  const N: nat := 131072
  /** Grid side along the doping axis: the integer part of the square root of N. */
  const NX: nat := 362
  /** Grid side across the doping axis (same as NX). */
  const NY: nat := 362

  /** Wave speed, grid spacing and time step of the integrator. */
  const C: real := 1.0
  const DX: real := 1.0 / 131072.0
  const DT: real := 0.000001

  /** One grid cell: its fixed plane position (x, y), its height z and
      the time derivative v of the height. */
  datatype Cell = Cell(x: real, y: real, z: real, v: real)

  /** The field indexed as g[i][j] with 0 <= i < NX and 0 <= j < NY. */
  type Grid = seq<seq<Cell>>

  /** The grid together with the elapsed simulated time. */
  datatype Sim = Sim(grid: Grid, t: real)

  predicate InGrid(i: int, j: int) {
    0 <= i < NX && 0 <= j < NY
  }

  /** The grid has the fixed NX by NY shape. */
  predicate IsGrid(g: Grid) {
    |g| == NX && forall i :: 0 <= i < NX ==> |g[i]| == NY
  }

  /** Plane coordinate of column i and of row j. */
  function CoordX(i: int): real {
    (i as real) / (NX as real) * 2.0 - 1.0
  }

  function CoordY(j: int): real {
    (j as real) / (NY as real) * 2.0 - 1.0
  }

  /** Every cell carries the plane position its index determines. */
  predicate Placed(g: Grid) {
    IsGrid(g) &&
    forall i, j {:trigger g[i][j]} :: 0 <= i < NX && 0 <= j < NY ==> g[i][j].x == CoordX(i) && g[i][j].y == CoordY(j)
  }

  /** Every height equals h. */
  predicate Flat(g: Grid, h: real) {
    IsGrid(g) && forall i, j :: 0 <= i < NX && 0 <= j < NY ==> g[i][j].z == h
  }

  /** Every velocity is zero. */
  predicate Still(g: Grid) {
    IsGrid(g) && forall i, j :: 0 <= i < NX && 0 <= j < NY ==> g[i][j].v == 0.0
  }

  /** Integer square root by upward search, the integer part of sqrt(n). */
  method FloorSqrt(n: nat) returns (r: nat)
    ensures r * r <= n < (r + 1) * (r + 1)
  {
    r := 0;
    while (r + 1) * (r + 1) <= n
      invariant r * r <= n
      decreases n - r * r
    {
      r := r + 1;
    }
  }

  /** Squaring is monotone on the naturals. */
  lemma SquareMonotone(a: nat, b: nat)
    requires a <= b
    ensures a * a <= b * b
  {
    assert a * a <= a * b;
  }

  /** The integer square root is unique, so any r that FloorSqrt may
      return for N is NX. */
  lemma FloorSqrtUnique(n: nat, r: nat, s: nat)
    requires r * r <= n < (r + 1) * (r + 1)
    requires s * s <= n < (s + 1) * (s + 1)
    ensures r == s
  {
    if r < s {
      SquareMonotone(r + 1, s);
    } else if s < r {
      SquareMonotone(s + 1, r);
    }
  }

  /** FloorSqrt(N) is NX: NX meets the bounds, and they fix the root. */
  lemma FloorSqrtOfNIsNX(r: nat)
    requires r * r <= N < (r + 1) * (r + 1)
    ensures r == NX == NY
  {
    GridSides();
    FloorSqrtUnique(N, r, NX);
  }

  /** The grid sides are the integer part of sqrt(N), and the grid has
      N - 28 cells. */
  lemma GridSides()
    ensures NX == NY
    ensures NX * NX <= N < (NX + 1) * (NX + 1)
    ensures NX * NY == 131044 && N - NX * NY == 28
  {
  }

  /** A column's coordinate lies in [-1, 1) and never reaches 1. */
  lemma CoordRange(i: int)
    requires 0 <= i < NX
    ensures -1.0 <= CoordX(i) < 1.0
    ensures -1.0 <= CoordY(i) < 1.0
  {
    assert (i as real) / (NX as real) < 1.0;
  }

  /** Distinct columns get distinct, increasing coordinates. */
  lemma CoordStrictlyIncreasing(i: int, i': int)
    requires i < i'
    ensures CoordX(i) < CoordX(i')
    ensures CoordY(i) < CoordY(i')
  {
    assert (i as real) / (NX as real) < (i' as real) / (NX as real);
  }

  /** The index is recovered from the coordinate. */
  lemma CoordRoundTrip(i: int)
    ensures (CoordX(i) + 1.0) / 2.0 * (NX as real) == i as real
    ensures (CoordY(i) + 1.0) / 2.0 * (NY as real) == i as real
  {
  }

  /** The start-up grid: every cell at its plane position, height and
      velocity zero. */
  function InitGrid(): (g: Grid)
    ensures Placed(g)
    ensures Flat(g, 0.0) && Still(g)
  {
    seq(NX, i => seq(NY, j => Cell(CoordX(i), CoordY(j), 0.0, 0.0)))
  }

  /** The simulation state at start-up: the clock is set to zero before the
      grid is initialised. */
  function Init(): (s: Sim)
    ensures Placed(s.grid) && Flat(s.grid, 0.0) && Still(s.grid)
    ensures s.t == 0.0
  {
    Sim(InitGrid(), 0.0)
  }
}

=== FILE: vectors.dfy ===
/** Plain 2D and 3D real vectors used by the pointer state and the view
    transform. */
module Vectors {

  datatype Vec2 = Vec2(x: real, y: real)

  datatype Vec3 = Vec3(x: real, y: real, z: real)

  const Origin2: Vec2 := Vec2(0.0, 0.0)

  function Add(a: Vec2, b: Vec2): Vec2 {
    Vec2(a.x + b.x, a.y + b.y)
  }

  function Sub(a: Vec2, b: Vec2): Vec2 {
    Vec2(a.x - b.x, a.y - b.y)
  }

  /** Squared Euclidean length. */
  function Norm2(p: Vec3): real {
    p.x * p.x + p.y * p.y + p.z * p.z
  }
}

=== FILE: view.dfy ===
/** View transform: rotates the axis triad and every grid point by the
    cumulative rotation, projects them orthographically to the screen,
    and classifies every grid point's height into one of three colours.
    The cosine and sine of the two angles are supplied from outside; the
    rotation matrices built from them are modelled exactly. */
module View {
  import opened Vectors
  import opened State

  /** The cosine and sine of one angle. */
  datatype Angle = Angle(cos: real, sin: real)

  /** The angle pair of one frame: pitch about the X axis, yaw about Y. */
  datatype Orientation = Orientation(pitch: Angle, yaw: Angle)

  /** No rotation at all. */
  const Upright: Orientation := Orientation(Angle(1.0, 0.0), Angle(1.0, 0.0))

  predicate IsUnit(a: Angle) {
    a.cos * a.cos + a.sin * a.sin == 1.0
  }

  /** The cumulative rotation's second component is the pitch and its
      first the yaw. */
  function OrientationOf(rotation: Vec2, cos: real -> real, sin: real -> real): (o: Orientation)
    ensures rotation == Origin2 && cos(0.0) == 1.0 && sin(0.0) == 0.0 ==> o == Upright
    ensures o.pitch.cos == cos(rotation.y) && o.yaw.cos == cos(rotation.x)
    ensures o.pitch.sin == sin(rotation.y) && o.yaw.sin == sin(rotation.x)
  {
    Orientation(Angle(cos(rotation.y), sin(rotation.y)), Angle(cos(rotation.x), sin(rotation.x)))
  }

  /** Rotation about the X axis. */
  function RotateX(a: Angle, p: Vec3): (q: Vec3)
    ensures q.x == p.x
    ensures p == Vec3(0.0, 1.0, 0.0) ==> q == Vec3(0.0, a.cos, a.sin)
  {
    Vec3(p.x, a.cos * p.y - a.sin * p.z, a.sin * p.y + a.cos * p.z)
  }

  /** Rotation about the Y axis. */
  function RotateY(a: Angle, p: Vec3): (q: Vec3)
    ensures q.y == p.y
    ensures p == Vec3(1.0, 0.0, 0.0) ==> q == Vec3(a.cos, 0.0, -a.sin)
  {
    Vec3(a.cos * p.x + a.sin * p.z, p.y, -a.sin * p.x + a.cos * p.z)
  }

  lemma RotateXKeepsLength(a: Angle, p: Vec3)
    requires IsUnit(a)
    ensures Norm2(RotateX(a, p)) == Norm2(p)
  {
  }

  lemma RotateYKeepsLength(a: Angle, p: Vec3)
    requires IsUnit(a)
    ensures Norm2(RotateY(a, p)) == Norm2(p)
  {
  }

  /** The full rotation: about X by the pitch first, then about Y by the
      yaw. The yaw leaves the pitched y alone, and with zero angles nothing
      moves. */
  function Rotate(o: Orientation, p: Vec3): (q: Vec3)
    ensures q.y == RotateX(o.pitch, p).y
    ensures o == Upright ==> q == p
  {
    RotateY(o.yaw, RotateX(o.pitch, p))
  }

  /** Where the unit axes go: the x axis is turned by the yaw alone, and
      the y axis is first tilted by the pitch, then turned by the yaw. This
      fixes both the order of the two rotations and which angle drives
      which. */
  lemma RotateAxisImages(o: Orientation)
    ensures Rotate(o, Vec3(1.0, 0.0, 0.0)) == Vec3(o.yaw.cos, 0.0, -o.yaw.sin)
    ensures Rotate(o, Vec3(0.0, 1.0, 0.0)) == RotateY(o.yaw, Vec3(0.0, o.pitch.cos, o.pitch.sin))
  {
  }

  /** When the supplied cosines and sines are those of real angles, the
      rotation keeps every point's distance from the origin. */
  lemma RotationKeepsLength(o: Orientation, p: Vec3)
    requires IsUnit(o.pitch) && IsUnit(o.yaw)
    ensures Norm2(Rotate(o, p)) == Norm2(p)
  {
    RotateXKeepsLength(o.pitch, p);
    RotateYKeepsLength(o.yaw, RotateX(o.pitch, p));
  }

  /** Screen position of a rotated axis end: centre 0.5, scale 0.3. The
      unit square maps onto [0.2, 0.8] on each screen axis. */
  function ProjectAxis(p: Vec3): (s: Vec2)
    ensures -1.0 <= p.x <= 1.0 <==> 0.2 <= s.x <= 0.8
    ensures -1.0 <= p.y <= 1.0 <==> 0.2 <= s.y <= 0.8
  {
    Vec2(0.5 + 0.3 * p.x, 0.5 + 0.3 * p.y)
  }

  /** Screen position of a rotated grid point: centre 0.5, scale 0.5. The
      unit square maps onto the whole screen [0, 1]. */
  function ProjectPoint(p: Vec3): (s: Vec2)
    ensures -1.0 <= p.x <= 1.0 <==> 0.0 <= s.x <= 1.0
    ensures -1.0 <= p.y <= 1.0 <==> 0.0 <= s.y <= 1.0
  {
    Vec2(0.5 + 0.5 * p.x, 0.5 + 0.5 * p.y)
  }

  /** Both projections keep the rotated x and y and drop only z. */
  lemma ProjectionsRoundTrip(p: Vec3)
    ensures var s := ProjectPoint(p); Vec2((s.x - 0.5) / 0.5, (s.y - 0.5) / 0.5) == Vec2(p.x, p.y)
    ensures var s := ProjectAxis(p); Vec2((s.x - 0.5) / 0.3, (s.y - 0.5) / 0.3) == Vec2(p.x, p.y)
    ensures forall h: real :: ProjectPoint(Vec3(p.x, p.y, h)) == ProjectPoint(p)
  {
  }

  /** The rotated position (0.4, -0.2, z) lands at (0.7, 0.4) as a grid
      point and at (0.62, 0.44) as an axis end. */
  lemma ProjectionExample(z: real)
    ensures ProjectPoint(Vec3(0.4, -0.2, z)) == Vec2(0.7, 0.4)
    ensures ProjectAxis(Vec3(0.4, -0.2, z)) == Vec2(0.62, 0.44)
  {
  }

  /** Display colours. */
  datatype Rgb = Rgb(r: int, g: int, b: int)

  const Red: Rgb := Rgb(255, 0, 0)
  const Green: Rgb := Rgb(0, 255, 0)
  const Blue: Rgb := Rgb(0, 0, 255)
  const Black: Rgb := Rgb(0, 0, 0)

  /** Three height bands: green within 0.1 of zero, red below, blue above. */
  function Classify(z: real): (c: Rgb)
    ensures c == Green <==> -0.1 <= z <= 0.1
    ensures c == Red <==> z < -0.1
    ensures c == Blue <==> z > 0.1
  {
    if 0.1 >= z >= -0.1 then Green
    else if z < -0.1 then Red
    else Blue
  }

  /** Heights 0.05, -0.3 and 0.5 fall in the middle, low and high bands. */
  lemma ClassifyExample()
    ensures Classify(0.05) == Green && Classify(-0.3) == Red && Classify(0.5) == Blue
  {
  }

  /** The axis triad: both ends of the x, y and z axes. */
  const Axes: seq<Vec3> := [Vec3(-1.0, 0.0, 0.0), Vec3(1.0, 0.0, 0.0),
                            Vec3(0.0, -1.0, 0.0), Vec3(0.0, 1.0, 0.0),
                            Vec3(0.0, 0.0, -1.0), Vec3(0.0, 0.0, 1.0)]

  /** Rotation commutes with reflection through the origin. */
  lemma RotateOpposite(o: Orientation, p: Vec3)
    ensures var q := Rotate(o, p); Rotate(o, Vec3(-p.x, -p.y, -p.z)) == Vec3(-q.x, -q.y, -q.z)
  {
  }

  /** The two ends of axis a project to mirror images through (0.5, 0.5). */
  lemma AxisEndsMirror(o: Orientation, a: int)
    requires 0 <= a < 3
    ensures var s, s' := ProjectAxis(Rotate(o, Axes[2 * a])), ProjectAxis(Rotate(o, Axes[2 * a + 1]));
      s.x + s'.x == 1.0 && s.y + s'.y == 1.0
  {
    var p := Axes[2 * a + 1];
    assert Axes[2 * a] == Vec3(-p.x, -p.y, -p.z);
    RotateOpposite(o, p);
  }

  /** The six screen points of the axis lines, rotated from the fixed
      triad each frame so no rotation accumulates in them. The two ends of
      each axis are mirror images through the screen centre (0.5, 0.5),
      whatever the rotation. */
  function AxisLines(o: Orientation): (r: seq<Vec2>)
    ensures |r| == |Axes| == 6
    ensures forall a :: 0 <= a < 3 ==>
      r[2 * a].x + r[2 * a + 1].x == 1.0 && r[2 * a].y + r[2 * a + 1].y == 1.0
  {
    var r := seq(6, a requires 0 <= a < 6 => ProjectAxis(Rotate(o, Axes[a])));
    AxisEndsMirror(o, 0);
    AxisEndsMirror(o, 1);
    AxisEndsMirror(o, 2);
    r
  }

  /** The screen ends of the unrotated axes: the x axis spans 0.2 to 0.8
      horizontally, the y axis 0.2 to 0.8 vertically, and the z axis
      collapses to the centre. */
  const UprightEnds: seq<Vec2> :=
    [Vec2(0.2, 0.5), Vec2(0.8, 0.5), Vec2(0.5, 0.2), Vec2(0.5, 0.8), Vec2(0.5, 0.5), Vec2(0.5, 0.5)]

  /** The unrotated axis ends project to the fixed screen points. */
  lemma ProjectedEnds(a: int)
    requires 0 <= a < 6
    ensures ProjectAxis(Axes[a]) == UprightEnds[a]
  {
    if a == 0 {
    } else if a == 1 {
    } else if a == 2 {
    } else if a == 3 {
    } else if a == 4 {
    } else {
    }
  }

  /** Unrotated, each axis end is drawn at the projection of the
      unrotated end. */
  lemma UprightAxisEnd(a: int)
    requires 0 <= a < 6
    ensures AxisLines(Upright)[a] == ProjectAxis(Axes[a])
  {
  }

  /** Unrotated, the six axis ends are the fixed screen points above. */
  lemma UprightAxisLines()
    ensures AxisLines(Upright) == UprightEnds
  {
    forall a | 0 <= a < 6
      ensures AxisLines(Upright)[a] == UprightEnds[a]
    {
      UprightAxisEnd(a);
      ProjectedEnds(a);
    }
  }

  /** Slot of cell (i, j) in the flat point buffer. */
  function FlatIndex(i: int, j: int): (k: nat)
    requires InGrid(i, j)
    ensures k < NX * NY < N
  {
    i * NY + j
  }

  /** The cell a flat slot belongs to. */
  function Unflatten(k: int): (ij: (int, int))
    requires 0 <= k < NX * NY
    ensures InGrid(ij.0, ij.1)
    ensures FlatIndex(ij.0, ij.1) == k
  {
    (k / NY, k % NY)
  }

  /** Flattening and unflattening are inverse, so distinct cells never share
      a slot, and the 28 slots from NX * NY on are never cells. */
  lemma FlatIndexRoundTrip(i: int, j: int)
    requires InGrid(i, j)
    ensures Unflatten(FlatIndex(i, j)) == (i, j)
  {
  }

  lemma FlatIndexInjective(i: int, j: int, i': int, j': int)
    requires InGrid(i, j) && InGrid(i', j')
    requires FlatIndex(i, j) == FlatIndex(i', j')
    ensures i == i' && j == j'
  {
    FlatIndexRoundTrip(i, j);
    FlatIndexRoundTrip(i', j');
  }

  /** A cell's full 3D position. */
  function PositionOf(c: Cell): Vec3 {
    Vec3(c.x, c.y, c.z)
  }

  /** What the renderer writes into slot k of the point and colour
      buffers: the projection of the rotated cell, and the band of its
      unrotated height. */
  function PointAt(g: Grid, o: Orientation, k: int): Vec2
    requires IsGrid(g) && 0 <= k < NX * NY
  {
    var (i, j) := Unflatten(k);
    ProjectPoint(Rotate(o, PositionOf(g[i][j])))
  }

  function ColorAt(g: Grid, k: int): Rgb
    requires IsGrid(g) && 0 <= k < NX * NY
  {
    var (i, j) := Unflatten(k);
    Classify(g[i][j].z)
  }

  /** The point buffer after one render pass: the cells' slots are
      rewritten, the slots past the grid keep what they held. */
  function RenderPoints(g: Grid, o: Orientation, prev: seq<Vec2>): (r: seq<Vec2>)
    requires IsGrid(g) && |prev| == N
    ensures |r| == N
    ensures forall i, j :: InGrid(i, j) ==> r[FlatIndex(i, j)] == ProjectPoint(Rotate(o, PositionOf(g[i][j])))
    ensures forall k :: NX * NY <= k < N ==> r[k] == prev[k]
  {
    var r := seq(N, k requires 0 <= k < N => if k < NX * NY then PointAt(g, o, k) else prev[k]);
    forall i, j | InGrid(i, j)
      ensures r[FlatIndex(i, j)] == ProjectPoint(Rotate(o, PositionOf(g[i][j])))
    {
      FlatIndexRoundTrip(i, j);
    }
    r
  }

  /** The colour buffer after one render pass. */
  function RenderColors(g: Grid, prev: seq<Rgb>): (r: seq<Rgb>)
    requires IsGrid(g) && |prev| == N
    ensures |r| == N
    ensures forall i, j :: InGrid(i, j) ==> r[FlatIndex(i, j)] == Classify(g[i][j].z)
    ensures forall k :: NX * NY <= k < N ==> r[k] == prev[k]
  {
    var r := seq(N, k requires 0 <= k < N => if k < NX * NY then ColorAt(g, k) else prev[k]);
    forall i, j | InGrid(i, j)
      ensures r[FlatIndex(i, j)] == Classify(g[i][j].z)
    {
      FlatIndexRoundTrip(i, j);
    }
    r
  }

  /** With no rotation, the grid point of cell (i, j) of a placed grid is
      drawn at (i / NX, j / NY), inside [0, 1) on both screen axes. */
  lemma UprightGridOnScreen(g: Grid, prev: seq<Vec2>, i: int, j: int)
    requires Placed(g) && |prev| == N && InGrid(i, j)
    ensures var s := RenderPoints(g, Upright, prev)[FlatIndex(i, j)];
      s == Vec2((i as real) / (NX as real), (j as real) / (NY as real)) &&
      0.0 <= s.x < 1.0 && 0.0 <= s.y < 1.0
  {
    CoordRange(i);
    CoordRange(j);
  }

  /** One render pass in the shape of the source: the six axis ends, then
      a row-major double loop over the cells writing slot i * NY + j. */
  method ApplyRotation(g: Grid, o: Orientation, prevPoints: seq<Vec2>, prevColors: seq<Rgb>)
    returns (axes: seq<Vec2>, points: seq<Vec2>, colors: seq<Rgb>)
    requires IsGrid(g) && |prevPoints| == N && |prevColors| == N
    ensures axes == AxisLines(o)
    ensures points == RenderPoints(g, o, prevPoints)
    ensures colors == RenderColors(g, prevColors)
  {
    axes := [];
    var a := 0;
    while a < 6
      invariant 0 <= a <= 6 && |axes| == a
      invariant forall b :: 0 <= b < a ==> axes[b] == ProjectAxis(Rotate(o, Axes[b]))
    {
      axes := axes + [ProjectAxis(Rotate(o, Axes[a]))];
      a := a + 1;
    }

    points, colors := prevPoints, prevColors;
    var i := 0;
    while i < NX
      invariant 0 <= i <= NX
      invariant |points| == N && |colors| == N
      invariant forall k :: 0 <= k < i * NY ==> points[k] == PointAt(g, o, k) && colors[k] == ColorAt(g, k)
      invariant forall k :: i * NY <= k < N ==> points[k] == prevPoints[k] && colors[k] == prevColors[k]
    {
      var j := 0;
      while j < NY
        invariant 0 <= j <= NY
        invariant |points| == N && |colors| == N
        invariant forall k :: 0 <= k < i * NY + j ==> points[k] == PointAt(g, o, k) && colors[k] == ColorAt(g, k)
        invariant forall k :: i * NY + j <= k < N ==> points[k] == prevPoints[k] && colors[k] == prevColors[k]
      {
        var idx := FlatIndex(i, j);
        FlatIndexRoundTrip(i, j);
        var cell := g[i][j];
        points := points[idx := ProjectPoint(Rotate(o, PositionOf(cell)))];
        colors := colors[idx := Classify(cell.z)];
        j := j + 1;
      }
      i := i + 1;
    }
    assert forall k :: 0 <= k < N ==> points[k] == RenderPoints(g, o, prevPoints)[k];
    assert forall k :: 0 <= k < N ==> colors[k] == RenderColors(g, prevColors)[k];
  }
}

=== FILE: wave.dfy ===
/** Wave integrator: one explicit, damped finite-difference step of the
    height field. Interior cells take a five-point Laplacian, add it to
    their velocity, damp the velocity, then move their height by the new
    velocity; the outer ring is skipped and the clock advances by DT.
    Every interior cell reads the heights as they were before the step. */
module Wave {
  import opened State

  /** The per-step velocity damping factor exp(-damping * DT), taken as a
      given constant strictly between 0 and 1. */
  type Damping = k: real | 0.0 < k < 1.0 witness 0.5

  /** Cells off the outermost ring. */
  predicate Interior(i: int, j: int) {
    0 < i < NX - 1 && 0 < j < NY - 1
  }

  /** The five-point discrete Laplacian of the heights around (i, j). It
      pulls a cell towards its neighbours: it is non-negative at a local
      minimum of the heights and non-positive at a local maximum. */
  function Laplacian(g: Grid, i: int, j: int): (r: real)
    requires IsGrid(g) && Interior(i, j)
    ensures (g[i][j].z <= g[i + 1][j].z && g[i][j].z <= g[i - 1][j].z &&
             g[i][j].z <= g[i][j + 1].z && g[i][j].z <= g[i][j - 1].z) ==> r >= 0.0
    ensures (g[i][j].z >= g[i + 1][j].z && g[i][j].z >= g[i - 1][j].z &&
             g[i][j].z >= g[i][j + 1].z && g[i][j].z >= g[i][j - 1].z) ==> r <= 0.0
  {
    (g[i + 1][j].z + g[i - 1][j].z + g[i][j + 1].z + g[i][j - 1].z - 4.0 * g[i][j].z) / (DX * DX)
  }

  /** A Laplacian is zero where the four neighbours have the cell's height. */
  lemma LaplacianOfLevelStencil(g: Grid, i: int, j: int)
    requires IsGrid(g) && Interior(i, j)
    requires g[i + 1][j].z == g[i][j].z && g[i - 1][j].z == g[i][j].z
    requires g[i][j + 1].z == g[i][j].z && g[i][j - 1].z == g[i][j].z
    ensures Laplacian(g, i, j) == 0.0
  {
  }

  /** The value of the stencil on any neighbourhood: writing the i- and
      j-neighbours as z + p +- a and z + q +- b, the Laplacian is
      2 * (p + q) / dx^2. Each of the four neighbours enters with weight
      1 / dx^2 and the cell itself with -4 / dx^2. */
  lemma LaplacianOfStencil(g: Grid, i: int, j: int, p: real, a: real, q: real, b: real)
    requires IsGrid(g) && Interior(i, j)
    requires g[i + 1][j].z == g[i][j].z + p + a && g[i - 1][j].z == g[i][j].z + p - a
    requires g[i][j + 1].z == g[i][j].z + q + b && g[i][j - 1].z == g[i][j].z + q - b
    ensures Laplacian(g, i, j) == 2.0 * (p + q) / (DX * DX)
  {
  }

  /** Opposite neighbours balance: heights that rise linearly through the
      cell in both directions (a uniform tilt) have a zero Laplacian. */
  lemma LaplacianOfTiltedStencil(g: Grid, i: int, j: int, a: real, b: real)
    requires IsGrid(g) && Interior(i, j)
    requires g[i + 1][j].z == g[i][j].z + a && g[i - 1][j].z == g[i][j].z - a
    requires g[i][j + 1].z == g[i][j].z + b && g[i][j - 1].z == g[i][j].z - b
    ensures Laplacian(g, i, j) == 0.0
  {
  }

  /** The velocity after the wave increment and before the damping. */
  function Kicked(v: real, lap: real): real {
    v + C * C * lap * DT
  }

  /** The new velocity of an interior cell from its old velocity and its
      Laplacian: the wave increment first, then the damping. The result
      lies strictly between zero and the incremented velocity. */
  function NewVelocity(v: real, lap: real, k: Damping): (r: real)
    ensures Kicked(v, lap) > 0.0 ==> 0.0 < r < Kicked(v, lap)
    ensures Kicked(v, lap) < 0.0 ==> Kicked(v, lap) < r < 0.0
    ensures Kicked(v, lap) == 0.0 ==> r == 0.0
  {
    var u := Kicked(v, lap);
    ScaleBelowOne(u, k);
    u * k
  }

  /** Scaling by a damping factor moves a value strictly towards zero
      without changing its sign. */
  lemma ScaleBelowOne(u: real, k: Damping)
    ensures u > 0.0 ==> 0.0 < u * k < u
    ensures u < 0.0 ==> u < u * k < 0.0
    ensures u == 0.0 ==> u * k == 0.0
  {
    if u > 0.0 {
      assert u * k < u * 1.0;
    } else if u < 0.0 {
      assert u * 1.0 < u * k;
    }
  }

  /** The new state of cell (i, j), computed from the grid before the step. */
  function StepCell(g: Grid, i: int, j: int, k: Damping): (r: Cell)
    requires IsGrid(g) && 0 <= i < NX && 0 <= j < NY
    ensures r.x == g[i][j].x && r.y == g[i][j].y
    ensures !Interior(i, j) ==> r == g[i][j]
    ensures Interior(i, j) ==> r.v == NewVelocity(g[i][j].v, Laplacian(g, i, j), k)
    ensures Interior(i, j) ==> r.z == g[i][j].z + r.v * DT
  {
    var c := g[i][j];
    if Interior(i, j) then
      var v := NewVelocity(c.v, Laplacian(g, i, j), k);
      Cell(c.x, c.y, c.z + v * DT, v)
    else
      c
  }

  /** One integrator step. */
  function Step(s: Sim, k: Damping): (r: Sim)
    requires IsGrid(s.grid)
    ensures IsGrid(r.grid)
    ensures r.t == s.t + DT
    ensures forall i, j :: 0 <= i < NX && 0 <= j < NY && !Interior(i, j) ==>
      r.grid[i][j] == s.grid[i][j]
    ensures forall i, j :: 0 <= i < NX && 0 <= j < NY ==>
      r.grid[i][j].x == s.grid[i][j].x && r.grid[i][j].y == s.grid[i][j].y
    ensures forall i, j :: 0 <= i < NX && 0 <= j < NY && Interior(i, j) ==>
      r.grid[i][j] == StepCell(s.grid, i, j, k)
    ensures Placed(s.grid) ==> Placed(r.grid)
  {
    var g := seq(NX, i requires 0 <= i < NX =>
      seq(NY, j requires 0 <= j < NY => StepCell(s.grid, i, j, k)));
    assert forall i, j :: 0 <= i < NX && 0 <= j < NY ==> g[i][j] == StepCell(s.grid, i, j, k);
    Sim(g, s.t + DT)
  }

  /** Damping is applied after the Laplacian increment is added, so the
      increment is damped as well. */
  lemma DampingAfterIncrement(v: real, lap: real, k: Damping)
    ensures NewVelocity(v, lap, k) - k * v == k * (C * C * lap * DT)
  {
  }

  /** The new cell depends only on the cell and its four direct neighbours,
      so cells can be updated in any order from a snapshot. */
  lemma {:induction false} StepIsLocal(g: Grid, h: Grid, k: Damping, i: int, j: int)
    requires IsGrid(g) && IsGrid(h) && 0 <= i < NX && 0 <= j < NY
    requires g[i][j] == h[i][j]
    requires Interior(i, j) ==>
      g[i + 1][j].z == h[i + 1][j].z && g[i - 1][j].z == h[i - 1][j].z &&
      g[i][j + 1].z == h[i][j + 1].z && g[i][j - 1].z == h[i][j - 1].z
    ensures StepCell(g, i, j, k) == StepCell(h, i, j, k)
  {
    if Interior(i, j) {
      assert Laplacian(g, i, j) == Laplacian(h, i, j);
    }
  }

  /** A level field at rest is a fixed point of the step: only the clock
      moves. */
  lemma {:induction false} LevelRestIsFixedPoint(s: Sim, h: real, k: Damping)
    requires Flat(s.grid, h) && Still(s.grid)
    ensures Step(s, k).grid == s.grid
    ensures Step(s, k).t == s.t + DT
  {
    var g: Grid := s.grid;
    var r: Grid := Step(s, k).grid;
    forall i | 0 <= i < NX
      ensures r[i] == g[i]
    {
      forall j | 0 <= j < NY
        ensures r[i][j] == g[i][j]
      {
        assert r[i][j] == StepCell(g, i, j, k);
        if Interior(i, j) {
          assert g[i + 1][j].z == h && g[i - 1][j].z == h;
          assert g[i][j + 1].z == h && g[i][j - 1].z == h;
          assert g[i][j].z == h && g[i][j].v == 0.0;
          LaplacianOfLevelStencil(g, i, j);
        }
      }
    }
  }

}
